=== FILE: README.md ===
# RustySweep board engine in Dafny

RustySweep is a terminal Minesweeper. This project models the engine behind
it:
- a rectangular board of tiles, each covered or revealed, mined or not, and flagged or not;
- the global game status (first pick made, game ended, game won, and the fatal cell);
- the reveal, including the first-pick mine relocation and the flood fill through cells with no neighbouring mines;
- flag toggling and the automatic flagging of the remaining tiles;
- random mine placement;
- the per-turn win check in the game loop;
- the choice of what each cell shows on screen;
- the clamping of a custom board's dimensions.

The model is functional. A `Board` is an immutable value whose tiles are a
row-major sequence indexed by `y * cols + x`. The process-wide game status
is passed in and returned explicitly as a `GameState` record. A Rust panic
is modelled as the `Panic` case of `Result`. The random number generator is
replaced by a choice over the cells it may return. `Mines.GetNewPos` makes
that choice with `:|`. The pure `Flood.Reveal` instead receives the
relocation cell as a parameter, which must be unmined whenever the first
pick needs it.

Modules, in dependency order:
- `Outcomes`: `Option` and `Result`.
- `Counting`: counting the elements of a sequence that satisfy a predicate. It plays the role of the source's `filter(..).count()`.
- `Grid`: positions, the row-major index, adjacency and `get_neighboring_tiles`.
- `Tiles`: the tile record and its `reveal` and `flag`.
- `Boards`: the board, its counters, `Board::new`, `flag` and `flag_all_remaining_tiles`.
- `Mines`: `get_new_pos`, `generate_mines` and the swap used by the first pick.
- `Status`: `GameState`.
- `Flood`: `Board::reveal`, and the proofs that the flood fill is complete and sound.
- `Scenarios`: small example boards: the 1x3 strips behind the findings below, and a 1x5 strip showing what flood soundness rules out.
- `Session`: the win check of `game_loop`, the dispatch of one player action, and the findings below.
- `Render`: the glyph `draw` prints for a cell, and the remaining-mines counter.
- `CustomBoard`: `make_custom_board`.

## Model

| member | source | states |
|---|---|---|
| Tiles.Reveal | src/main.rs:323-331 | revealing reports a hit exactly when the tile holds a mine; a mined tile is left untouched, any other tile ends revealed and unflagged with its mine unchanged |
| Tiles.Flag | src/main.rs:333-335 | flagging flips the flag and touches neither the mine nor the revealed state |
| Tiles.RevealIdempotent | src/main.rs:323-331 | revealing a safe tile a second time gives the same tile and the same (no-hit) report as revealing it once |
| Tiles.FlagInvolutive | src/main.rs:333-335 | flagging twice restores the tile |
| Grid.Index | src/main.rs:61 | the row-major index of an on-board cell lies below rows*cols |
| Grid.IndexInjective | src/main.rs:61 | two on-board cells with the same row-major index are the same cell |
| Grid.PosOf | src/main.rs:285 | the cell recovered from an index below rows*cols is on the board and indexes back to it |
| Grid.Candidates | src/main.rs:145-150 | the scan produces nine distinct candidates, and a cell is among them exactly when it lies in the 3x3 block around the centre |
| Grid.KeepOnGrid | src/main.rs:152-163 | a candidate is kept exactly when it is on the grid and is not the centre cell; distinct candidates give distinct neighbours, and dropping the centre makes the list strictly shorter |
| Grid.Neighbors | src/main.rs:141-168 | a cell is listed exactly when it is on the board, differs from the centre and is within one step on both axes; the list has no repeats and at most 8 entries |
| Boards.New | src/main.rs:40-57 | construction succeeds exactly when mines <= rows*cols; the board then has rows*cols tiles, all covered, unmined and unflagged |
| Boards.NewBoardCounts | src/main.rs:40-57 | a new board has no mines, no flags, nothing revealed, and every tile remains |
| Tiles.Fresh | src/main.rs:315-321 | defines the tile `Tile::new` builds: covered, unmined and unflagged; `Boards.New` and `CustomBoard.MakeCustomBoard` state that every tile of a new board is this one |
| Status.Initial | src/main.rs:16-24 | defines the status `GameState::new` builds: no pick made, game neither ended nor won, no fatal cell |
| Boards.RemainingTiles | src/main.rs:128-134 | counts the tiles neither revealed nor flagged; the count is at most the number of tiles and is zero exactly when every tile is revealed or flagged; `Boards.Partition` and `Boards.FlagCounts` relate it to the other counters |
| Boards.FlaggedTiles | src/main.rs:136-138 | counts the flagged tiles, revealed or not; the count is at most the number of tiles and is zero exactly when no tile carries a flag; `Boards.Partition` and `Boards.FlagCounts` relate it to the other counters |
| Boards.Partition | src/main.rs:128-138 | remaining + flagged + revealed equals the number of tiles plus the number of revealed tiles that carry a flag |
| Boards.PartitionInvariant | src/main.rs:128-138 | on a board where no revealed tile is flagged, remaining + flagged + revealed equals the number of tiles |
| Boards.FlagOpenBreaksPartition | src/main.rs:121-138 | flagging any revealed, unflagged tile is allowed and adds exactly one to remaining + flagged + revealed; on a board with no flagged revealed tile the sum becomes rows*cols + 1 |
| Boards.Flag | src/main.rs:121-126 | only the flag of the chosen cell changes, and it flips; every other cell is untouched |
| Boards.FlagTwice | src/main.rs:121-126 | flagging the same cell twice restores the board |
| Boards.FlagCounts | src/main.rs:121-138 | a flag toggle keeps the mine and revealed counts; the flagged count moves by one in the direction of the toggle, and the remaining count moves the other way on a covered cell |
| Boards.FlagRemaining | src/main.rs:174-183 | afterwards every covered tile is flagged, every flag already placed stays, and no tile's mine or revealed state changes |
| Boards.FlagRemainingCounts | src/main.rs:174-183 | after flagging the remaining tiles nothing remains, the flagged count has grown by the former remaining count, and mines and revealed tiles are unchanged |
| Boards.FlagAllRemainingTiles | src/main.rs:170-184 | the call panics exactly when remaining + flagged differs from the mine budget; otherwise nothing remains afterwards, the flagged count equals the budget, and no tile's mine or revealed state changes |
| Mines.GetNewPos | src/main.rs:291-304 | the returned cell is on the board and holds no mine |
| Mines.PlaceMine | src/main.rs:285-287 | the chosen cell holds a mine afterwards and every other cell is unchanged; placing on an unmined cell adds exactly one mine |
| Mines.GenerateMines | src/main.rs:281-289 | placing the mine budget on a board with room for it adds exactly that many mines, keeps every existing mine, and changes no revealed or flag state |
| Mines.SetUpBoard | src/main.rs:40-57 | board creation followed by mine generation succeeds exactly when mines <= rows*cols, and then exactly `mines` tiles are mined and none is revealed or flagged |
| Mines.SwapTiles | src/main.rs:76-80 | the two cells exchange tiles, every other cell is unchanged, and every count is preserved |
| Flood.RevealStepCounts | src/main.rs:88-118 | a reveal step never changes the mine count and never increases the number of covered tiles |
| Flood.MinesAmong | src/main.rs:104-111 | the number of mined cells in a neighbour list is at most the length of the list |
| Flood.MinesAmongZero | src/main.rs:104-111 | the mined-neighbour count is zero exactly when no listed cell holds a mine |
| Flood.MinedNeighborCount | src/main.rs:233-240 | a cell has at most 8 mined neighbours |
| Flood.MinedNeighborCountZero | src/main.rs:104-113 | a cell's mined-neighbour count is zero exactly when none of its on-board adjacent cells holds a mine |
| Flood.Uncover | src/main.rs:88-118 | an already revealed target changes nothing; a covered mine ends the game and records the fatal cell with no tile changed; a safe target ends revealed, with the status unchanged in a running game; every tile either keeps its state or is a covered safe tile that becomes revealed and unflagged |
| Flood.UncoverAll | src/main.rs:116-118 | revealing a list of safe cells reveals every one of them, only ever reveals covered safe tiles, and leaves the status alone |
| Flood.Reveal | src/main.rs:60-119 | the mine count is preserved and the first pick is marked as made; a first pick never ends the game and always reveals the chosen cell; outside the first-pick swap only covered safe tiles change, and only by being revealed; a repeat reveal is a no-op and a later reveal on a mine ends the game at that cell; a safe reveal, or a first pick, leaves a running game running with only the first pick marked, and uncovers the target |
| Flood.RevealMove | src/main.rs:60-86 | the relocation cell drawn from the generator for a first pick on a mine is a safe cell other than the target, and the reveal gives the same guarantees as `Flood.Reveal` |
| Flood.RevealKeepsMinesCovered | src/main.rs:88-118 | if no revealed tile holds a mine before a reveal, none does after it |
| Flood.UncoverFlood | src/main.rs:88-118 | uncovering a cell in a running game leaves a closed flood: every newly revealed cell with no mined neighbour has all its neighbours revealed. It is also sound: every newly revealed cell is reached from the target by a chain of adjacent newly revealed cells, each link of which has no mined neighbour |
| Flood.UncoverAllFlood | src/main.rs:116-118 | the neighbour loop leaves a flood that is closed and sound: every newly revealed cell is reached from one of the requested cells by a chain of adjacent newly revealed cells with no mined neighbour |
| Flood.ReachedLift | src/main.rs:104-118 | a chain of links between one pair of boards carries over to another pair that keeps every link and reaches every requested cell |
| Flood.NeighborsReached | src/main.rs:113-118 | every neighbour of a newly revealed cell with no mined neighbour is one link away from it |
| Flood.SoundSplit | src/main.rs:116-118 | a sound flood from the first requested cell followed by a sound flood from the rest is a sound flood from the whole list |
| Flood.RevealFlood | src/main.rs:60-119 | a whole reveal, measured from the board after any first-pick swap, uncovers a safe target (and a first pick), changes only covered safe tiles, leaves the flood closed, and reveals only cells reached from the target by a chain of adjacent newly revealed cells with no mined neighbour |
| Session.WinCheck | src/main.rs:418-427 | the check panics exactly when remaining equals the mine budget while some tile is flagged; otherwise the game is won exactly when it already was, nothing remains, or remaining + flagged equals the budget; the other status fields are unchanged; without the auto-flag the board is untouched, and with it nothing remains, every flag stays and exactly the covered tiles gain one, with no mine or revealed state changed |
| Scenarios.FarCellUnreachable | src/main.rs:104-118 | on the 1x3 strip with its mine flagged, no chain of links from (0,0) reaches (2,0), whatever reveal step is taken |
| Scenarios.IslandUnreached | src/main.rs:104-118 | on a 1x5 strip with its mine at (1,0), revealing every safe cell leaves (3,0) and (4,0) unreachable from (0,0) by a chain of any length |
| Scenarios.IslandIsNotSound | src/main.rs:104-118 | that board is a valid reveal step but not a sound flood from (0,0): two zero cells next to each other do not justify themselves |
| Session.ReachMidGame | src/main.rs:60-126 | on a 1x3 strip with its one mine in the middle, flagging the mine and then revealing the left end yields the mid-game board with the game still running |
| Session.WinCheckPanicsMidGame | src/main.rs:418-427 | on that mid-game board the win check panics although a safe cell is still covered |
| Session.FlagEverythingWins | src/main.rs:418-420 | flagging all three cells of the strip makes the win check declare a win while a safe cell is still covered |
| Session.FixedWinCheck | src/main.rs:418-427 | the corrected check declares a win exactly when the game was already won or the number of covered tiles equals the mine budget; the other status fields and every tile's mine and revealed state are unchanged; with no win the board is untouched, and a win flags exactly the covered tiles and keeps every flag |
| Session.FixedWinCheckCorrect | src/main.rs:418-427 | on a board in play, the corrected check wins exactly when every safe cell is revealed; a win leaves nothing remaining and every mine flagged |
| Session.FixedWinCheckOnFindings | src/main.rs:418-427 | the corrected check declares no win on either counterexample board |
| Session.Apply | src/main.rs:484-487 | one player action keeps the board shape and the mine count; a flag move toggles the flag of its cell, changes no other cell and leaves the status alone; a reveal move is `Flood.Reveal` on its cell |
| Session.TurnPreservesInPlay | src/main.rs:484-487 | every turn keeps the board in play (mine budget placed, no mine revealed) and keeps the fatal cell recorded once the game has ended |
| Render.TileGlyph | src/main.rs:206-268 | a mine is drawn exactly when the game has ended and the cell holds one; it is green when flagged, red exactly when it is the recorded fatal cell, and plain otherwise; the missing-fatal-cell unwrap is the only panic; a revealed cell shows its mined-neighbour count (never above 8) or a blank; a covered flag shows a caret, red once the game has ended; any other covered cell shows `#` |
| Render.GlyphChar | src/main.rs:206-268 | a covered cell prints `#`, a flag `^`, a blank a space and a mine `*`, each exactly for its glyph; a numbered cell prints the digit of its count |
| Render.CoveredCellHidesMine | src/main.rs:206-268 | while the game is running, a covered cell is drawn the same way whether or not it holds a mine |
| Render.DrawAfterRevealNeverPanics | src/main.rs:206-268 | drawing any cell after a reveal from a state with the fatal cell recorded never panics |
| Render.MineCounter | src/main.rs:187 | the unsigned counter panics exactly when more tiles are flagged than there are mines, and otherwise equals the budget minus the flags |
| Render.SignedMineCounter | src/main.rs:187 | the signed counter agrees with the unsigned one whenever that succeeds, and is negative exactly when the unsigned one panics; its value is always the mine budget minus the flags placed |
| Render.OverFlaggedCounter | src/main.rs:187 | on the one-mine strip with all three cells flagged, the unsigned counter panics and the signed one reads -2 |
| CustomBoard.Clamp | src/main.rs:541-556 | width and height below 8 become exactly 8 and larger ones pass through; the mine count is raised to at least 10 and capped at (rows-1)*(cols-1), which stays below rows*cols; in-range values pass through unchanged |
| CustomBoard.ClampIdempotent | src/main.rs:541-556 | clamping already clamped dimensions changes nothing |
| CustomBoard.MakeCustomBoard | src/main.rs:510-559 | width, height and mine count are checked in that order, and for each a cancel is checked before an invalid entry; otherwise the result is a well-formed board of the clamped size with the clamped mine budget, every tile of it fresh |
| Counting.CountUpdate | src/main.rs:128-138 | replacing one element changes a count by at most one, exactly as the predicate's truth on the old and new element dictates |
| Counting.Count3 | src/main.rs:128-138 | the count over a three-element sequence is the sum of the predicate's indicators on its elements |
| Counting.CountLe | src/main.rs:128-138 | if the predicate on one sequence implies the predicate on another of equal length, element by element, then the first count is at most the second; equal counts make the implication an equivalence |

## Left out

- Terminal I/O is not modelled: the screen clearing, ANSI colour codes, the frame, column headers and the layout of `draw`. `Render.TileGlyph` only names the glyph and its colour class.
- The digit width of the mine counter (line 189) uses `f64` logarithms. It is not modelled.
- `rng` (lines 642-644) is not modelled. Wherever the source calls it, the model takes an arbitrary unmined on-board cell. Whether the resampling loop in `get_new_pos` terminates is a matter of probability. The model requires an unmined cell to exist.
- The `RwLock` around the global status (lines 4-6) is replaced by an explicit `GameState` passed in and returned.
- The unsafe `set_len` before `fill` (lines 45-49) is not modelled. The model starts with `rows*cols` fresh tiles.
- The debug `println!` of the mine count in `reveal` (lines 65-68) is output only.
- `usize` arithmetic is unbounded in the model. The overflow of `rows*cols` and `(rows-1)*(cols-1)` for huge inputs is not modelled, and neither are the `isize` casts in `get_neighboring_tiles`. Negative candidates are kept as `int` and dropped, as the bounds test drops them.
- `Flood.Reveal` requires the target to be on the board. Bounds are checked by `game_loop` before `Board::reveal` is called. The same holds for `Boards.Flag`.
- `Session.Apply` takes the parsed action. The input menus, `Action` parsing, board selection and the restart prompt in `main` and `game_loop` are not modelled: reading, parsing and re-prompting belong to the front end.
- The escape sequence `\x1B0m` (line 262) lacks its `[`. This affects output only.

Two behaviours of the code worth noting:
- Neighbours are listed with the x offset in the outer loop and the y offset in the inner loop.
- `Board::flag` also flags revealed tiles. The "remaining + flagged + revealed = tiles" invariant therefore only holds while no revealed tile is flagged. `Boards.FlagOpenBreaksPartition` shows the break.

## Findings

| source | as written | input that shows it | evidently intended | confidence | as-written member | corrected member |
|---|---|---|---|---|---|---|
| src/main.rs:422-425 | when remaining equals the mine budget, the win check calls `flag_all_remaining_tiles`, whose guard panics whenever some tile is already flagged | on the 9x9 preset (10 mines): flag one mine, then reveal every safe cell but one; remaining is 10, flagged is 1, the budget is 10. The proofs use the smaller 1x3 board with its mine at (1,0): flag (1,0), then reveal (0,0) | the game is won once the covered tiles are exactly the mines; no panic | high, not executed | Session.WinCheckPanicsMidGame | Session.FixedWinCheckCorrect |
| src/main.rs:418-420 | `remaining_tiles() == 0` declares a win, and flagged tiles do not count as remaining | on any preset, flag every cell without revealing any; the proofs use the 1x3 board with all three cells flagged. The state is set to won, but the `draw` at line 429 runs before "You won!" is printed: in a debug build it underflows at line 187; in a release build the wrapped counter has 20 digits (line 189) and `cols - (digits + 1)` at lines 194-195 wraps on a board with fewer than 21 columns, and repeating a space that many times panics, so only a release build on the 16x30 preset shows the win | flags alone do not win; every safe cell must be revealed | high, not executed | Session.FlagEverythingWins | Session.FixedWinCheckOnFindings |
| src/main.rs:187 | the mine counter is `mines_count - flagged` in `usize`, which underflows when more tiles are flagged than there are mines: a panic in a debug build, a huge number in a release build | on the 9x9 preset (10 mines), place 11 flags; the proofs use the 1x3 board with all three cells flagged. The huge number is printed only on a board with at least 21 columns (the 16x30 preset, with 100 flags); on a narrower board the release build panics at lines 194-195 instead | a signed counter that can go negative | medium, not executed | Render.OverFlaggedCounter | Render.SignedMineCounter |

=== FILE: board.dfy ===
/** The minefield (`struct Board`): construction, flagging and the tile
    statistics the session loop reads. Tiles are stored row-major, so the
    cell (x, y) lives at index `y * cols + x`. */
module Boards {
  import opened Outcomes
  import opened Counting
  import opened Grid
  import Tiles

  datatype Board = Board(rows: nat, cols: nat, minesCount: nat, tiles: seq<Tiles.Tile>)

  /** One tile per cell, and no more mines than cells (the assertion in `Board::new`). */
  predicate WellFormed(b: Board)
  {
    |b.tiles| == b.rows * b.cols && b.minesCount <= b.rows * b.cols
  }

  predicate InBounds(b: Board, p: Pos)
  {
    InGrid(b.rows, b.cols, p)
  }

  function Idx(b: Board, p: Pos): (i: nat)
    requires WellFormed(b) && InBounds(b, p)
    ensures i < |b.tiles|
  {
    Index(b.rows, b.cols, p)
  }

  /** The tile at cell `p`. */
  function At(b: Board, p: Pos): Tiles.Tile
    requires WellFormed(b) && InBounds(b, p)
  {
    b.tiles[Idx(b, p)]
  }

  /** Same dimensions, same mine budget, same number of tiles. */
  predicate SameShape(a: Board, c: Board)
  {
    a.rows == c.rows && a.cols == c.cols && a.minesCount == c.minesCount && |a.tiles| == |c.tiles|
  }

  /** Writing one cell leaves every other cell as it was. */
  lemma UpdateFrame(b: Board, p: Pos, t: Tiles.Tile)
    requires WellFormed(b) && InBounds(b, p)
    ensures var c := b.(tiles := b.tiles[Idx(b, p) := t]);
      WellFormed(c) && At(c, p) == t &&
      forall q :: InBounds(b, q) && q != p ==> At(c, q) == At(b, q)
  {
    forall q | InBounds(b, q) && q != p
      ensures Idx(b, q) != Idx(b, p)
    {
      if Idx(b, q) == Idx(b, p) {
        IndexInjective(b.rows, b.cols, p, q);
      }
    }
  }

  // Tile statistics.

  function MineCount(b: Board): nat { Count(b.tiles, Tiles.IsMined) }

  /** `remaining_tiles`: tiles neither revealed nor flagged. It is zero
      exactly when every tile is revealed or flagged. */
  function RemainingTiles(b: Board): (n: nat)
    ensures n <= |b.tiles|
    ensures n == 0 <==> forall i :: 0 <= i < |b.tiles| ==> b.tiles[i].revealed || b.tiles[i].hasFlag
  {
    CountNone(b.tiles, Tiles.IsRemaining);
    Count(b.tiles, Tiles.IsRemaining)
  }

  /** `flagged_tiles`: tiles carrying a flag, revealed or not. It is zero
      exactly when no tile carries a flag. */
  function FlaggedTiles(b: Board): (n: nat)
    ensures n <= |b.tiles|
    ensures n == 0 <==> forall i :: 0 <= i < |b.tiles| ==> !b.tiles[i].hasFlag
  {
    CountNone(b.tiles, Tiles.IsFlagged);
    Count(b.tiles, Tiles.IsFlagged)
  }

  function RevealedTiles(b: Board): nat { Count(b.tiles, Tiles.IsRevealed) }

  function CoveredTiles(b: Board): nat { Count(b.tiles, Tiles.IsCovered) }

  /** `Board::new`: a grid of fresh tiles; the `assert!` panics when there
      are more mines than cells. */
  function New(rows: nat, cols: nat, mines: nat): (r: Result<Board>)
    ensures r.Ok? <==> mines <= rows * cols
    ensures r.Ok? ==> WellFormed(r.value) && r.value.rows == rows && r.value.cols == cols && r.value.minesCount == mines
    ensures r.Ok? ==> forall i :: 0 <= i < |r.value.tiles| ==> r.value.tiles[i] == Tiles.Fresh
  {
    if rows * cols >= mines then
      Ok(Board(rows, cols, mines, seq(rows * cols, _ => Tiles.Fresh)))
    else
      Panic("assertion failed: (rows * cols) >= mines")
  }

  /** A new board has no mines, no flags and nothing revealed: every cell
      remains to be played. */
  lemma NewBoardCounts(rows: nat, cols: nat, mines: nat)
    requires mines <= rows * cols
    ensures var b := New(rows, cols, mines).value;
      MineCount(b) == 0 && FlaggedTiles(b) == 0 && RevealedTiles(b) == 0 &&
      RemainingTiles(b) == rows * cols
  {
    var b := New(rows, cols, mines).value;
    CountNone(b.tiles, Tiles.IsMined);
    CountNone(b.tiles, Tiles.IsFlagged);
    CountNone(b.tiles, Tiles.IsRevealed);
    CountAll(b.tiles, Tiles.IsRemaining);
  }

  /** Tile statistics always add up to the number of cells once each
      revealed-and-flagged tile is discounted: such a tile is counted both as
      revealed and as flagged. */
  lemma {:induction false} Partition(ts: seq<Tiles.Tile>)
    ensures Count(ts, Tiles.IsRemaining) + Count(ts, Tiles.IsFlagged) + Count(ts, Tiles.IsRevealed)
         == |ts| + Count(ts, Tiles.IsFlaggedOpen)
  {
    if |ts| > 0 {
      Partition(ts[1..]);
    }
  }

  /** The partition invariant: on a board where no revealed tile carries a
      flag, remaining + flagged + revealed is the number of cells. */
  lemma PartitionInvariant(b: Board)
    requires WellFormed(b)
    requires forall i :: 0 <= i < |b.tiles| ==> !Tiles.IsFlaggedOpen(b.tiles[i])
    ensures RemainingTiles(b) + FlaggedTiles(b) + RevealedTiles(b) == b.rows * b.cols
  {
    Partition(b.tiles);
    CountNone(b.tiles, Tiles.IsFlaggedOpen);
  }

  /** `Board::flag`: toggles the flag of the tile at `p`. */
  function Flag(b: Board, p: Pos): (r: Board)
    requires WellFormed(b) && InBounds(b, p)
    ensures WellFormed(r) && SameShape(b, r)
    ensures At(r, p).hasFlag == !At(b, p).hasFlag
    ensures At(r, p).revealed == At(b, p).revealed && At(r, p).hasMine == At(b, p).hasMine
    ensures forall q :: InBounds(b, q) && q != p ==> At(r, q) == At(b, q)
  {
    UpdateFrame(b, p, Tiles.Flag(At(b, p)));
    b.(tiles := b.tiles[Idx(b, p) := Tiles.Flag(At(b, p))])
  }

  /** Flagging the same cell twice is the identity. */
  lemma FlagTwice(b: Board, p: Pos)
    requires WellFormed(b) && InBounds(b, p)
    ensures Flag(Flag(b, p), p) == b
  {
    var i := Idx(b, p);
    assert Flag(Flag(b, p), p).tiles == b.tiles[i := Tiles.Flag(b.tiles[i])][i := b.tiles[i]];
  }

  /** Flagging moves one tile in or out of the flagged count; a covered
      tile moves the opposite way in the remaining count, a revealed one does
      not; mines and revealed tiles are untouched. */
  lemma FlagCounts(b: Board, p: Pos)
    requires WellFormed(b) && InBounds(b, p)
    ensures var r := Flag(b, p);
      && FlaggedTiles(r) == (if At(b, p).hasFlag then FlaggedTiles(b) - 1 else FlaggedTiles(b) + 1)
      && RemainingTiles(r) == (if At(b, p).revealed then RemainingTiles(b)
                               else if At(b, p).hasFlag then RemainingTiles(b) + 1
                               else RemainingTiles(b) - 1)
      && MineCount(r) == MineCount(b) && RevealedTiles(r) == RevealedTiles(b)
  {
    var i, t := Idx(b, p), Tiles.Flag(At(b, p));
    CountUpdate(b.tiles, i, t, Tiles.IsFlagged);
    CountUpdate(b.tiles, i, t, Tiles.IsRemaining);
    CountUpdate(b.tiles, i, t, Tiles.IsMined);
    CountUpdate(b.tiles, i, t, Tiles.IsRevealed);
  }

  /** Flagging a revealed, unflagged tile, which the source allows, adds one
      to remaining + flagged + revealed; on a board that kept the partition
      invariant the sum then exceeds the number of tiles. */
  lemma FlagOpenBreaksPartition(b: Board, p: Pos)
    requires WellFormed(b) && InBounds(b, p) && At(b, p).revealed && !At(b, p).hasFlag
    ensures var r := Flag(b, p);
      RemainingTiles(r) + FlaggedTiles(r) + RevealedTiles(r) == RemainingTiles(b) + FlaggedTiles(b) + RevealedTiles(b) + 1
    ensures (forall i :: 0 <= i < |b.tiles| ==> !Tiles.IsFlaggedOpen(b.tiles[i])) ==>
      var r := Flag(b, p);
      RemainingTiles(r) + FlaggedTiles(r) + RevealedTiles(r) == b.rows * b.cols + 1
  {
    FlagCounts(b, p);
    if forall i :: 0 <= i < |b.tiles| ==> !Tiles.IsFlaggedOpen(b.tiles[i]) {
      PartitionInvariant(b);
    }
  }

  /** The loop body of `flag_all_remaining_tiles`: flags every tile that is
      neither revealed nor flagged. */
  function FlagRemaining(ts: seq<Tiles.Tile>): (r: seq<Tiles.Tile>)
    ensures |r| == |ts|
    ensures forall i :: 0 <= i < |ts| ==> r[i].revealed == ts[i].revealed && r[i].hasMine == ts[i].hasMine
    ensures forall i :: 0 <= i < |ts| ==> r[i].hasFlag == (ts[i].hasFlag || !ts[i].revealed)
  {
    seq(|ts|, i requires 0 <= i < |ts| => if Tiles.IsRemaining(ts[i]) then Tiles.Flag(ts[i]) else ts[i])
  }

  /** After auto-flagging nothing remains, and the flags placed are exactly
      the tiles that remained. */
  lemma FlagRemainingCounts(ts: seq<Tiles.Tile>)
    ensures Count(FlagRemaining(ts), Tiles.IsRemaining) == 0
    ensures Count(FlagRemaining(ts), Tiles.IsFlagged) == Count(ts, Tiles.IsFlagged) + Count(ts, Tiles.IsRemaining)
  {
    var r := FlagRemaining(ts);
    CountNone(r, Tiles.IsRemaining);
    CountSum(r, Tiles.IsFlagged, ts, Tiles.IsFlagged, Tiles.IsRemaining);
  }

  /** `flag_all_remaining_tiles`: panics unless remaining + flagged equals
      the mine budget; otherwise flags every remaining tile. */
  function FlagAllRemainingTiles(b: Board): (r: Result<Board>)
    requires WellFormed(b)
    ensures r.Ok? <==> RemainingTiles(b) + FlaggedTiles(b) == b.minesCount
    ensures r.Ok? ==> WellFormed(r.value) && SameShape(b, r.value)
    ensures r.Ok? ==> RemainingTiles(r.value) == 0 && FlaggedTiles(r.value) == b.minesCount
    ensures r.Ok? ==> forall i :: 0 <= i < |b.tiles| ==>
      && r.value.tiles[i].revealed == b.tiles[i].revealed
      && r.value.tiles[i].hasMine == b.tiles[i].hasMine
      && (b.tiles[i].hasFlag ==> r.value.tiles[i].hasFlag)
  {
    if RemainingTiles(b) + FlaggedTiles(b) != b.minesCount then
      Panic("Auto win, but there are more tiles than mines")
    else
      FlagRemainingCounts(b.tiles);
      Ok(b.(tiles := FlagRemaining(b.tiles)))
  }
}

=== FILE: counting.dfy ===
/** Counting the elements of a sequence that satisfy a predicate: the
    `iter().filter(..).count()` idiom the board uses for every statistic. */
module Counting {

  /** 1 when `b` holds, 0 otherwise. */
  function Ind(b: bool): nat
  {
    if b then 1 else 0
  }

  /** Number of elements of `s` satisfying `P`. */
  function Count<T>(s: seq<T>, P: T -> bool): (n: nat)
    ensures n <= |s|
  {
    if |s| == 0 then 0 else Ind(P(s[0])) + Count(s[1..], P)
  }

  /** No element satisfies `P` exactly when the count is zero. */
  lemma {:induction false} CountNone<T>(s: seq<T>, P: T -> bool)
    ensures Count(s, P) == 0 <==> forall i :: 0 <= i < |s| ==> !P(s[i])
  {
    if |s| > 0 {
      CountNone(s[1..], P);
      assert forall i :: 1 <= i < |s| ==> s[i] == s[1..][i - 1];
    }
  }

  /** Every element satisfies `P` exactly when the count is the length. */
  lemma {:induction false} CountAll<T>(s: seq<T>, P: T -> bool)
    ensures Count(s, P) == |s| <==> forall i :: 0 <= i < |s| ==> P(s[i])
  {
    if |s| > 0 {
      CountAll(s[1..], P);
      assert forall i :: 1 <= i < |s| ==> s[i] == s[1..][i - 1];
    }
  }

  /** Replacing one element changes the count by the difference of the two
      indicator values, and by nothing else. */
  lemma {:induction false} CountUpdate<T>(s: seq<T>, i: nat, v: T, P: T -> bool)
    requires i < |s|
    ensures Count(s[i := v], P) == Count(s, P) - Ind(P(s[i])) + Ind(P(v))
  {
    if i == 0 {
      assert s[i := v][1..] == s[1..];
    } else {
      assert s[i := v][1..] == s[1..][i - 1 := v];
      CountUpdate(s[1..], i - 1, v, P);
    }
  }

  /** Exchanging two elements leaves every count unchanged. */
  lemma SwapCount<T>(s: seq<T>, i: nat, j: nat, P: T -> bool)
    requires i < |s| && j < |s|
    ensures Count(s[i := s[j]][j := s[i]], P) == Count(s, P)
  {
    CountUpdate(s, i, s[j], P);
    CountUpdate(s[i := s[j]], j, s[i], P);
  }

  /** If `P` on `a` implies `Q` on `c` position by position, `a` has at most
      as many `P`-elements as `c` has `Q`-elements, and equal counts force the
      converse implication at every position. */
  lemma {:induction false} CountLe<T, U>(a: seq<T>, P: T -> bool, c: seq<U>, Q: U -> bool)
    requires |a| == |c|
    requires forall i :: 0 <= i < |a| ==> P(a[i]) ==> Q(c[i])
    ensures Count(a, P) <= Count(c, Q)
    ensures Count(a, P) == Count(c, Q) ==> forall i :: 0 <= i < |a| ==> Q(c[i]) ==> P(a[i])
  {
    if |a| > 0 {
      assert forall i :: 0 <= i < |a| - 1 ==> a[1..][i] == a[i + 1] && c[1..][i] == c[i + 1];
      CountLe(a[1..], P, c[1..], Q);
      assert forall i :: 1 <= i < |a| ==> a[i] == a[1..][i - 1] && c[i] == c[1..][i - 1];
    }
  }

  /** Counts add up when, position by position, the indicator of `P` on `a`
      is the sum of the indicators of `Q` and `R` on `c`. */
  lemma {:induction false} CountSum<T, U>(a: seq<T>, P: T -> bool, c: seq<U>, Q: U -> bool, R: U -> bool)
    requires |a| == |c|
    requires forall i :: 0 <= i < |a| ==> Ind(P(a[i])) == Ind(Q(c[i])) + Ind(R(c[i]))
    ensures Count(a, P) == Count(c, Q) + Count(c, R)
  {
    if |a| > 0 {
      assert forall i :: 0 <= i < |a| - 1 ==> a[1..][i] == a[i + 1] && c[1..][i] == c[i + 1];
      CountSum(a[1..], P, c[1..], Q, R);
    }
  }

  /** Counting a three-element sequence, element by element. */
  lemma Count3<T>(a: T, b: T, c: T, P: T -> bool)
    ensures Count([a, b, c], P) == Ind(P(a)) + Ind(P(b)) + Ind(P(c))
  {
    assert [a, b, c][1..] == [b, c] && [b, c][1..] == [c] && [c][1..] == [];
    assert Count([c], P) == Ind(P(c)) + Count([], P);
    assert Count([b, c], P) == Ind(P(b)) + Count([c], P);
  }
}

=== FILE: custom.dfy ===
/** The pure part of `make_custom_board`: the three numbers the player
    typed (or a cancel or invalid entry in their place) are checked in order
    and clamped to the board limits before `Board::new` is called. */
module CustomBoard {
  import opened Outcomes
  import opened Boards
  import Tiles

  /** What one prompt of `get_input_num` produced. */
  datatype Input = Num(n: nat) | Cancel | Invalid

  /** `Result<Board, CustomBoardError>`. */
  datatype Custom = Built(board: Board) | Cancelled | Rejected

  /** Board dimensions and mine count, in `Board::new`'s order. */
  datatype Dims = Dims(rows: nat, cols: nat, mines: nat)

  /** The largest mine count a custom board accepts. */
  function MaxMines(rows: nat, cols: nat): nat
    requires rows >= 1 && cols >= 1
  {
    (rows - 1) * (cols - 1)
  }

  /** Lines 541-556: at least 8 columns, 8 rows and 10 mines, and at most
      (rows - 1) * (cols - 1) mines, computed from the clamped sides. */
  function Clamp(cols: nat, rows: nat, mines: nat): (d: Dims)
    ensures d.cols >= 8 && d.rows >= 8
    ensures 10 <= d.mines <= MaxMines(d.rows, d.cols) < d.rows * d.cols
    ensures d.cols == (if cols < 8 then 8 else cols)
    ensures d.rows == (if rows < 8 then 8 else rows)
    ensures 10 <= mines <= MaxMines(d.rows, d.cols) ==> d.mines == mines
    ensures mines < 10 ==> d.mines == 10
    ensures mines > MaxMines(d.rows, d.cols) ==> d.mines == MaxMines(d.rows, d.cols)
  {
    var c := if cols < 8 then 8 else cols;
    var r := if rows < 8 then 8 else rows;
    var m := if mines < 10 then 10 else mines;
    var m := if m > MaxMines(r, c) then MaxMines(r, c) else m;
    Grid.MulMono(7, r - 1, c - 1);
    Grid.MulMono(7, 7, c - 1);
    Grid.MulMono(r - 1, r, c - 1);
    Grid.MulMono(c - 1, c, r);
    Dims(r, c, m)
  }

  /** Clamping settles in one pass: clamped values pass through unchanged. */
  lemma ClampIdempotent(cols: nat, rows: nat, mines: nat)
    ensures var d := Clamp(cols, rows, mines); Clamp(d.cols, d.rows, d.mines) == d
  {
  }

  /** `make_custom_board`: the first cancel or invalid entry, in the order
      width, height, mines, decides the error; otherwise the clamped board
      is built, and the assertion in `Board::new` always holds for it. */
  function MakeCustomBoard(cols: Input, rows: Input, mines: Input): (r: Custom)
    ensures r.Cancelled? <==>
      cols.Cancel? || (cols.Num? && (rows.Cancel? || (rows.Num? && mines.Cancel?)))
    ensures r.Built? <==> cols.Num? && rows.Num? && mines.Num?
    ensures r.Built? ==>
      var d := Clamp(cols.n, rows.n, mines.n);
      && WellFormed(r.board) && r.board.rows == d.rows && r.board.cols == d.cols && r.board.minesCount == d.mines
      && forall i :: 0 <= i < |r.board.tiles| ==> r.board.tiles[i] == Tiles.Fresh
  {
    if cols.Cancel? then Cancelled
    else if cols.Invalid? then Rejected
    else if rows.Cancel? then Cancelled
    else if rows.Invalid? then Rejected
    else if mines.Cancel? then Cancelled
    else if mines.Invalid? then Rejected
    else
      var d := Clamp(cols.n, rows.n, mines.n);
      Built(New(d.rows, d.cols, d.mines).value)
  }
}

=== FILE: flood.dfy ===
/** `Board::reveal`: first-click safety, the mine-hit signal and the
    recursive flood through cells without mined neighbours. */
module Flood {
  import opened Outcomes
  import opened Counting
  import opened Grid
  import Tiles
  import opened Boards
  import opened Mines
  import opened Status

  /** A board together with the game status after an operation. */
  datatype Play = Play(board: Board, state: GameState)

  /** How one tile may change during a reveal: not at all, or a covered
      unmined tile becomes revealed (dropping its flag). */
  predicate TileStep(t: Tiles.Tile, u: Tiles.Tile)
  {
    u == t || (!t.revealed && !t.hasMine && u == Tiles.Reveal(t).0)
  }

  /** `c` arises from `b` by revealing covered unmined tiles and nothing else:
      no mine moves, no revealed tile is covered again, no other flag changes. */
  predicate RevealStep(b: Board, c: Board)
  {
    && WellFormed(b) && WellFormed(c) && SameShape(b, c)
    && forall i :: 0 <= i < |b.tiles| ==> TileStep(b.tiles[i], c.tiles[i])
  }

  lemma RevealStepTrans(a: Board, b: Board, c: Board)
    requires RevealStep(a, b) && RevealStep(b, c)
    ensures RevealStep(a, c)
  {
  }

  /** Read at one cell, a reveal step keeps the mine and never covers the tile. */
  lemma StepAt(b: Board, c: Board, q: Pos)
    requires RevealStep(b, c) && InBounds(b, q)
    ensures InBounds(c, q) && TileStep(At(b, q), At(c, q))
    ensures At(c, q).hasMine == At(b, q).hasMine && (At(b, q).revealed ==> At(c, q).revealed)
  {
    assert Idx(c, q) == Idx(b, q);
  }

  /** Cell by cell over a list: mines stay put and revealed tiles stay revealed. */
  lemma StepOn(b: Board, c: Board, ns: seq<Pos>)
    requires RevealStep(b, c) && forall q :: q in ns ==> InBounds(b, q)
    ensures forall q :: q in ns ==> InBounds(c, q) && At(c, q).hasMine == At(b, q).hasMine
    ensures forall q :: q in ns ==> At(b, q).revealed ==> At(c, q).revealed
  {
    forall q | q in ns
      ensures InBounds(c, q) && At(c, q).hasMine == At(b, q).hasMine
      ensures At(b, q).revealed ==> At(c, q).revealed
    {
      StepAt(b, c, q);
    }
  }

  /** A reveal step keeps the mines where they are and never covers a tile. */
  lemma RevealStepCounts(b: Board, c: Board)
    requires RevealStep(b, c)
    ensures MineCount(c) == MineCount(b) && CoveredTiles(c) <= CoveredTiles(b)
  {
    CountLe(b.tiles, Tiles.IsMined, c.tiles, Tiles.IsMined);
    CountLe(c.tiles, Tiles.IsMined, b.tiles, Tiles.IsMined);
    CountLe(c.tiles, Tiles.IsCovered, b.tiles, Tiles.IsCovered);
  }

  /** Number of mined cells among `ns`. */
  function MinesAmong(b: Board, ns: seq<Pos>): (n: nat)
    requires WellFormed(b) && forall q :: q in ns ==> InBounds(b, q)
    ensures n <= |ns|
  {
    if |ns| == 0 then 0 else Ind(At(b, ns[0]).hasMine) + MinesAmong(b, ns[1..])
  }

  /** The count is zero exactly when none of the cells holds a mine. */
  lemma {:induction false} MinesAmongZero(b: Board, ns: seq<Pos>)
    requires WellFormed(b) && forall q :: q in ns ==> InBounds(b, q)
    ensures MinesAmong(b, ns) == 0 <==> forall q :: q in ns ==> !At(b, q).hasMine
  {
    if |ns| > 0 {
      MinesAmongZero(b, ns[1..]);
      assert forall q :: q in ns ==> q == ns[0] || q in ns[1..];
    }
  }

  /** Boards with the same mines see the same number of mines among any cells. */
  lemma {:induction false} MinesAmongSameMines(b: Board, c: Board, ns: seq<Pos>)
    requires WellFormed(b) && WellFormed(c) && SameShape(b, c)
    requires forall q :: q in ns ==> InBounds(b, q) && At(c, q).hasMine == At(b, q).hasMine
    ensures MinesAmong(b, ns) == MinesAmong(c, ns)
  {
    if |ns| > 0 {
      MinesAmongSameMines(b, c, ns[1..]);
    }
  }

  /** The adjacent-mine count `draw` prints; at most 8, so the `panic!` for
      more than 8 nearby mines is unreachable. */
  function MinedNeighborCount(b: Board, p: Pos): (n: nat)
    requires WellFormed(b) && InBounds(b, p)
    ensures n <= 8
  {
    MinesAmong(b, Neighbors(b.rows, b.cols, p))
  }

  /** No neighbour of `p` holds a mine exactly when the count is zero. */
  lemma MinedNeighborCountZero(b: Board, p: Pos)
    requires WellFormed(b) && InBounds(b, p)
    ensures MinedNeighborCount(b, p) == 0 <==> forall q :: InBounds(b, q) && Adjacent(p, q) ==> !At(b, q).hasMine
  {
    MinesAmongZero(b, Neighbors(b.rows, b.cols, p));
  }

  /** Lines 88-118: the reveal once the first-pick check is out of the way.
      A revealed target short-circuits; a mined target reports the hit and
      records the fatal cell; otherwise the tile is revealed and, when no
      neighbour holds a mine, every neighbour is revealed in turn. */
  function Uncover(b: Board, st: GameState, p: Pos): (r: Play)
    requires WellFormed(b) && InBounds(b, p)
    ensures RevealStep(b, r.board)
    ensures r.state.pickedTile == st.pickedTile && r.state.gameWon == st.gameWon
    ensures st.gameEnded ==> r.state.gameEnded
    ensures EndingRecorded(st) ==> EndingRecorded(r.state)
    ensures At(b, p).revealed ==> r == Play(b, st)
    ensures !At(b, p).revealed && At(b, p).hasMine ==>
      r == Play(b, st.(gameEnded := true, gameEndingTile := Some(p)))
    ensures !At(b, p).hasMine ==> At(r.board, p).revealed
    ensures !st.gameEnded && !At(b, p).hasMine ==> r.state == st
    decreases CoveredTiles(b), 0
  {
    var t := At(b, p);
    if t.revealed then
      Play(b, st)
    else
      var (t', hit) := Tiles.Reveal(t);
      var st' := if hit then st.(gameEnded := true) else st;
      UpdateFrame(b, p, t');
      CountUpdate(b.tiles, Idx(b, p), t', Tiles.IsCovered);
      var b' := b.(tiles := b.tiles[Idx(b, p) := t']);
      if st'.gameEnded then
        Play(b', st'.(gameEndingTile := Some(p)))
      else
        var ns := Neighbors(b.rows, b.cols, p);
        if MinesAmong(b', ns) > 0 then
          Play(b', st')
        else
          MinesAmongZero(b', ns);
          var r := UncoverAll(b', st', ns);
          RevealStepTrans(b, b', r.board);
          r
  }

  /** The `for` loop over the neighbours at lines 116-118. Every cell in `ns`
      is unmined, so no call in the loop can hit a mine. */
  function UncoverAll(b: Board, st: GameState, ns: seq<Pos>): (r: Play)
    requires WellFormed(b) && forall q :: q in ns ==> InBounds(b, q)
    requires !st.gameEnded && forall q :: q in ns ==> !At(b, q).hasMine
    ensures RevealStep(b, r.board)
    ensures r.state == st
    ensures forall q :: q in ns ==> InBounds(r.board, q) && At(r.board, q).revealed
    decreases CoveredTiles(b), |ns|
  {
    if |ns| == 0 then
      Play(b, st)
    else
      var first := Uncover(b, st, ns[0]);
      RevealStepCounts(b, first.board);
      StepOn(b, first.board, ns);
      var r := UncoverAll(first.board, st, ns[1..]);
      RevealStepTrans(b, first.board, r.board);
      StepOn(first.board, r.board, [ns[0]]);
      assert forall q :: q in ns ==> q == ns[0] || q in ns[1..];
      r
  }

  /** The first reveal of a game landed on a mine, so the mine must be moved. */
  predicate NeedsSpare(b: Board, st: GameState, p: Pos)
    requires WellFormed(b) && InBounds(b, p)
  {
    !st.pickedTile && At(b, p).hasMine
  }

  /** A cell `get_new_pos` may return: on the board and without a mine. */
  predicate SpareOk(b: Board, spare: Pos)
  {
    WellFormed(b) && InBounds(b, spare) && !At(b, spare).hasMine
  }

  /** `Board::reveal`. On the first pick a mined target is swapped with the
      unmined cell `spare` (the cell the random generator produced; it
      differs from `p` because it has no mine) and the reveal is retried;
      every other call marks the first pick as done and uncovers `p`. */
  function Reveal(b: Board, st: GameState, p: Pos, spare: Pos): (r: Play)
    requires WellFormed(b) && InBounds(b, p)
    requires NeedsSpare(b, st, p) ==> SpareOk(b, spare)
    ensures WellFormed(r.board) && SameShape(b, r.board) && MineCount(r.board) == MineCount(b)
    ensures r.state.pickedTile && r.state.gameWon == st.gameWon
    ensures EndingRecorded(st) ==> EndingRecorded(r.state)
    ensures !NeedsSpare(b, st, p) ==> RevealStep(b, r.board)
    ensures NeedsSpare(b, st, p) ==> RevealStep(SwapTiles(b, p, spare), r.board)
    // first-click safety
    ensures !st.pickedTile && !st.gameEnded ==> !r.state.gameEnded && At(r.board, p).revealed
    // reveals that change no tile
    ensures At(b, p).revealed && !NeedsSpare(b, st, p) ==> r == Play(b, st.(pickedTile := true))
    ensures st.pickedTile && !At(b, p).revealed && At(b, p).hasMine ==>
      r == Play(b, st.(gameEnded := true, gameEndingTile := Some(p)))
    // a safe reveal (or a first pick, which is made safe) leaves a running game running
    ensures !st.gameEnded && (NeedsSpare(b, st, p) || !At(b, p).hasMine) ==> r.state == st.(pickedTile := true)
    // and uncovers the target, whether it is the first pick or a later one
    ensures NeedsSpare(b, st, p) || !At(b, p).hasMine ==> At(r.board, p).revealed
    decreases if NeedsSpare(b, st, p) then 1 else 0
  {
    if NeedsSpare(b, st, p) then
      Reveal(SwapTiles(b, p, spare), st, p, spare)
    else
      var r := Uncover(b, st.(pickedTile := true), p);
      RevealStepCounts(b, r.board);
      r
  }

  /** `Board::reveal` with its call to `get_new_pos`: the relocation cell is
      drawn only when the first pick hits a mine. The source's resampling
      loop never ends on a board with no unmined cell, which the second
      precondition excludes. */
  method RevealMove(b: Board, st: GameState, p: Pos) returns (r: Play)
    requires WellFormed(b) && InBounds(b, p)
    requires NeedsSpare(b, st, p) ==> MineCount(b) < |b.tiles|
    ensures exists spare :: (NeedsSpare(b, st, p) ==> SpareOk(b, spare)) && r == Reveal(b, st, p, spare)
    ensures MineCount(r.board) == MineCount(b) && r.state.pickedTile
    ensures !st.pickedTile && !st.gameEnded ==> !r.state.gameEnded && At(r.board, p).revealed
  {
    var spare := p;
    if NeedsSpare(b, st, p) {
      spare := GetNewPos(b);
      // The source's `while new_x == x && new_y == y` retry never runs.
      assert spare != p;
    }
    r := Reveal(b, st, p, spare);
  }

  /** No revealed tile holds a mine. */
  predicate NoOpenMine(b: Board)
  {
    forall i :: 0 <= i < |b.tiles| ==> b.tiles[i].revealed ==> !b.tiles[i].hasMine
  }

  /** A reveal never exposes a mine: if no mine was revealed before, none is after. */
  lemma RevealKeepsMinesCovered(b: Board, st: GameState, p: Pos, spare: Pos)
    requires WellFormed(b) && InBounds(b, p) && NoOpenMine(b)
    requires NeedsSpare(b, st, p) ==> SpareOk(b, spare)
    ensures NoOpenMine(Reveal(b, st, p, spare).board)
  {
    if NeedsSpare(b, st, p) {
      var s := SwapTiles(b, p, spare);
      forall i | 0 <= i < |s.tiles|
        ensures s.tiles[i].revealed ==> !s.tiles[i].hasMine
      {
        var q := PosOf(b.rows, b.cols, i);
        if q == p {
        } else if q == spare {
        } else {
          assert s.tiles[i] == At(s, q) == At(b, q);
        }
      }
    }
  }

  // The flood: which tiles a reveal uncovers.

  /** Cell `q` is covered in `b` and revealed in `c`. */
  predicate NewlyRevealed(b: Board, c: Board, q: Pos)
    requires RevealStep(b, c) && InBounds(b, q)
  {
    assert Idx(c, q) == Idx(b, q);
    !At(b, q).revealed && At(c, q).revealed
  }

  /** Every neighbour of `q` is revealed. */
  predicate Settled(c: Board, q: Pos)
    requires WellFormed(c) && InBounds(c, q)
  {
    forall n :: n in Neighbors(c.rows, c.cols, q) ==> At(c, n).revealed
  }

  /** Completeness of the flood: each newly revealed cell with no mined
      neighbour has all its neighbours revealed. */
  ghost predicate Closed(b: Board, c: Board)
    requires RevealStep(b, c)
  {
    forall q :: InBounds(b, q) && NewlyRevealed(b, c, q) && MinedNeighborCount(c, q) == 0 ==> Settled(c, q)
  }

  /** `m` can carry the flood on: it is newly revealed and has no mined
      neighbour. */
  predicate Link(b: Board, c: Board, m: Pos)
  {
    RevealStep(b, c) && InBounds(b, m) && NewlyRevealed(b, c, m) && MinedNeighborCount(c, m) == 0
  }

  /** `q` is one of the cells asked for, or within `k` steps of one along a
      chain of adjacent links. */
  ghost predicate Reached(b: Board, c: Board, asked: seq<Pos>, q: Pos, k: nat)
    decreases k
  {
    || q in asked
    || (k > 0 && exists m :: Link(b, c, m) && Adjacent(m, q) && Reached(b, c, asked, m, k - 1))
  }

  /** `q` is reached from the cells asked for in some number of steps. */
  ghost predicate Reachable(b: Board, c: Board, asked: seq<Pos>, q: Pos)
  {
    exists k: nat :: Reached(b, c, asked, q, k)
  }

  /** Soundness of the flood: every newly revealed cell is reached from the
      cells asked for through newly revealed cells with no mined neighbour.
      So the flood spreads only through such cells and stops at numbered ones. */
  ghost predicate Sound(b: Board, c: Board, asked: seq<Pos>)
    requires RevealStep(b, c)
  {
    forall q :: InBounds(b, q) && NewlyRevealed(b, c, q) ==> Reachable(b, c, asked, q)
  }

  /** A chain found between one pair of boards carries over to another pair
      in which every link of the chain is still a newly revealed cell with no
      mined neighbour, provided every cell asked for is reached there. */
  lemma {:induction false} ReachedLift(b: Board, c: Board, asked: seq<Pos>,
                                       b2: Board, c2: Board, asked2: seq<Pos>, q: Pos, k: nat)
    requires forall m :: Link(b, c, m) ==> Link(b2, c2, m)
    requires forall x :: x in asked ==> Reachable(b2, c2, asked2, x)
    requires Reached(b, c, asked, q, k)
    ensures Reachable(b2, c2, asked2, q)
    decreases k
  {
    if q !in asked {
      var m :| Link(b, c, m) && Adjacent(m, q) && Reached(b, c, asked, m, k - 1);
      ReachedLift(b, c, asked, b2, c2, asked2, m, k - 1);
      assert Reachable(b2, c2, asked2, m);
      var j: nat :| Reached(b2, c2, asked2, m, j);
      assert Reached(b2, c2, asked2, q, j + 1);
    }
  }

  /** A cell with no mined neighbour keeps that status, and its settledness,
      along a reveal step. */
  lemma ZeroAndSettledCarry(b: Board, c: Board, q: Pos)
    requires RevealStep(b, c) && InBounds(b, q)
    ensures MinedNeighborCount(c, q) == MinedNeighborCount(b, q)
    ensures Settled(b, q) ==> Settled(c, q)
  {
    var ns := Neighbors(b.rows, b.cols, q);
    StepOn(b, c, ns);
    MinesAmongSameMines(b, c, ns);
  }

  lemma {:induction false} UncoverFlood(b: Board, st: GameState, p: Pos)
    requires WellFormed(b) && InBounds(b, p) && !st.gameEnded
    ensures var c := Uncover(b, st, p).board; Closed(b, c) && Sound(b, c, [p])
    decreases CoveredTiles(b), 0
  {
    var c := Uncover(b, st, p).board;
    var t := At(b, p);
    if t.revealed || t.hasMine {
      assert c == b;
      return;
    }
    var t' := Tiles.Reveal(t).0;
    UpdateFrame(b, p, t');
    CountUpdate(b.tiles, Idx(b, p), t', Tiles.IsCovered);
    var b' := b.(tiles := b.tiles[Idx(b, p) := t']);
    assert RevealStep(b, b');
    var ns := Neighbors(b.rows, b.cols, p);
    if MinesAmong(b', ns) > 0 {
      assert c == b';
      StopAtNumber(b, b', p);
      return;
    }
    MinesAmongZero(b', ns);
    assert c == UncoverAll(b', st, ns).board;
    UncoverAllFlood(b', st, ns);
    FloodFromCell(b, b', c, p);
  }

  /** A revealed cell with a mined neighbour is the only cell revealed. */
  lemma StopAtNumber(b: Board, b': Board, p: Pos)
    requires RevealStep(b, b') && InBounds(b, p)
    requires forall q :: InBounds(b, q) && q != p ==> At(b', q) == At(b, q)
    requires MinesAmong(b', Neighbors(b.rows, b.cols, p)) > 0
    ensures Closed(b, b') && Sound(b, b', [p])
  {
    forall q | InBounds(b, q) && NewlyRevealed(b, b', q)
      ensures q == p && Reached(b, b', [p], q, 0)
    {
    }
  }

  /** The step of `UncoverFlood` that adds the clicked cell to what the
      flood from its neighbours established. */
  lemma FloodFromCell(b: Board, b': Board, c: Board, p: Pos)
    requires RevealStep(b, b') && RevealStep(b', c) && InBounds(b, p)
    requires !At(b, p).revealed && At(b', p).revealed
    requires forall q :: InBounds(b, q) && q != p ==> At(b', q) == At(b, q)
    requires MinesAmong(b', Neighbors(b.rows, b.cols, p)) == 0
    requires forall q :: q in Neighbors(b.rows, b.cols, p) ==> At(c, q).revealed
    requires Closed(b', c) && Sound(b', c, Neighbors(b.rows, b.cols, p))
    ensures RevealStep(b, c) && Closed(b, c) && Sound(b, c, [p])
  {
    RevealStepTrans(b, b', c);
    var ns := Neighbors(b.rows, b.cols, p);
    ZeroAndSettledCarry(b', c, p);
    assert NewlyRevealed(b, c, p) by {
      StepAt(b', c, p);
    }
    forall q | InBounds(b, q) && NewlyRevealed(b, c, q) && q != p
      ensures NewlyRevealed(b', c, q)
    {
    }
    forall q | InBounds(b, q) && NewlyRevealed(b, c, q) && MinedNeighborCount(c, q) == 0
      ensures Settled(c, q)
    {
    }
    SoundFromCell(b, b', c, p);
  }

  /** The soundness half of `FloodFromCell`: the neighbours of `p` are one
      step from `p`, so every chain from them extends to a chain from `p`. */
  lemma SoundFromCell(b: Board, b': Board, c: Board, p: Pos)
    requires RevealStep(b, b') && RevealStep(b', c) && RevealStep(b, c) && InBounds(b, p)
    requires NewlyRevealed(b, c, p) && MinedNeighborCount(c, p) == 0 && At(b', p).revealed
    requires forall q :: InBounds(b, q) && q != p ==> At(b', q) == At(b, q)
    requires Sound(b', c, Neighbors(b.rows, b.cols, p))
    ensures Sound(b, c, [p])
  {
    var ns := Neighbors(b.rows, b.cols, p);
    NeighborsReached(b, c, p);
    LinksCarryBack(b, b', c, p);
    assert Reached(b, c, [p], p, 0);
    forall q | InBounds(b, q) && NewlyRevealed(b, c, q) && q != p
      ensures Reachable(b, c, [p], q)
    {
      assert NewlyRevealed(b', c, q);
      ChainFromNeighbors(b', c, ns, b, [p], q);
    }
  }

  /** One use of `ReachedLift`: a cell reached from `asked` is reached from
      `asked2` once every cell of `asked` is and every link carries over. */
  lemma ChainFromNeighbors(b: Board, c: Board, asked: seq<Pos>, b2: Board, asked2: seq<Pos>, q: Pos)
    requires forall m :: Link(b, c, m) ==> Link(b2, c, m)
    requires forall x :: x in asked ==> Reachable(b2, c, asked2, x)
    requires Reachable(b, c, asked, q)
    ensures Reachable(b2, c, asked2, q)
  {
    var k: nat :| Reached(b, c, asked, q, k);
    ReachedLift(b, c, asked, b2, c, asked2, q, k);
  }

  /** Revealing `p` first does not change which later cells are links. */
  lemma LinksCarryBack(b: Board, b': Board, c: Board, p: Pos)
    requires RevealStep(b, b') && RevealStep(b', c) && RevealStep(b, c) && InBounds(b, p)
    requires At(b', p).revealed
    requires forall q :: InBounds(b, q) && q != p ==> At(b', q) == At(b, q)
    ensures forall m :: Link(b', c, m) ==> Link(b, c, m)
  {
    forall m | Link(b', c, m)
      ensures Link(b, c, m)
    {
    }
  }

  /** Each neighbour of a newly revealed cell with no mined neighbour is one
      step from it. */
  lemma NeighborsReached(b: Board, c: Board, p: Pos)
    requires RevealStep(b, c) && InBounds(b, p)
    requires NewlyRevealed(b, c, p) && MinedNeighborCount(c, p) == 0
    ensures forall x :: x in Neighbors(b.rows, b.cols, p) ==> Reachable(b, c, [p], x)
  {
    assert Link(b, c, p) && Reached(b, c, [p], p, 0);
    forall x | x in Neighbors(b.rows, b.cols, p)
      ensures Reachable(b, c, [p], x)
    {
      assert Reached(b, c, [p], x, 1);
    }
  }

  /** The soundness half of `UncoverAllFlood`: chains from the first cell
      and chains from the rest both carry over to the whole walk. */
  lemma SoundSplit(b: Board, first: Board, c: Board, ns: seq<Pos>)
    requires RevealStep(b, first) && RevealStep(first, c) && RevealStep(b, c) && |ns| > 0
    requires Sound(b, first, [ns[0]]) && Sound(first, c, ns[1..])
    ensures Sound(b, c, ns)
  {
    forall m | Link(b, first, m)
      ensures Link(b, c, m)
    {
      StepAt(first, c, m);
      ZeroAndSettledCarry(first, c, m);
    }
    forall m | Link(first, c, m)
      ensures Link(b, c, m)
    {
      StepAt(b, first, m);
    }
    forall x | x in ns
      ensures Reachable(b, c, ns, x)
    {
      assert Reached(b, c, ns, x, 0);
    }
    assert forall x :: x in ns[1..] ==> x in ns;
    forall q | InBounds(b, q) && NewlyRevealed(b, c, q)
      ensures Reachable(b, c, ns, q)
    {
      StepAt(b, first, q);
      if At(first, q).revealed {
        var k: nat :| Reached(b, first, [ns[0]], q, k);
        ReachedLift(b, first, [ns[0]], b, c, ns, q, k);
      } else {
        var k: nat :| Reached(first, c, ns[1..], q, k);
        ReachedLift(first, c, ns[1..], b, c, ns, q, k);
      }
    }
  }

  lemma {:induction false} UncoverAllFlood(b: Board, st: GameState, ns: seq<Pos>)
    requires WellFormed(b) && forall q :: q in ns ==> InBounds(b, q)
    requires !st.gameEnded && forall q :: q in ns ==> !At(b, q).hasMine
    ensures var c := UncoverAll(b, st, ns).board; Closed(b, c) && Sound(b, c, ns)
    decreases CoveredTiles(b), |ns|
  {
    if |ns| == 0 {
      return;
    }
    var first := Uncover(b, st, ns[0]).board;
    RevealStepCounts(b, first);
    StepOn(b, first, ns);
    var c := UncoverAll(first, st, ns[1..]).board;
    UncoverFlood(b, st, ns[0]);
    UncoverAllFlood(first, st, ns[1..]);
    RevealStepTrans(b, first, c);
    forall q | InBounds(b, q) && NewlyRevealed(b, c, q) && MinedNeighborCount(c, q) == 0
      ensures Settled(c, q)
    {
      StepAt(first, c, q);
      ZeroAndSettledCarry(first, c, q);
    }
    SoundSplit(b, first, c, ns);
  }

  /** The flood theorem for a whole reveal in a running game: measured from
      the board the retry works on (after the first-pick swap, if any), every
      uncovered cell is reached from `p` through uncovered cells with no
      mined neighbour, every uncovered cell with no mined neighbour has all
      its neighbours revealed, and a safe target (or a first pick) is itself
      uncovered. */
  lemma RevealFlood(b: Board, st: GameState, p: Pos, spare: Pos)
    requires WellFormed(b) && InBounds(b, p) && !st.gameEnded
    requires NeedsSpare(b, st, p) ==> SpareOk(b, spare)
    ensures var base := if NeedsSpare(b, st, p) then SwapTiles(b, p, spare) else b;
      var c := Reveal(b, st, p, spare).board;
      && RevealStep(base, c) && Closed(base, c) && Sound(base, c, [p])
      && (NeedsSpare(b, st, p) || !At(b, p).hasMine ==> At(c, p).revealed)
  {
    if NeedsSpare(b, st, p) {
      var s := SwapTiles(b, p, spare);
      assert !NeedsSpare(s, st, p);
      UncoverFlood(s, st.(pickedTile := true), p);
    } else {
      UncoverFlood(b, st.(pickedTile := true), p);
    }
  }
}

=== FILE: grid.dfy ===
/** Cell coordinates, the row-major index of a cell, and the in-bounds 3x3
    neighbourhood of a cell (`Board::get_neighboring_tiles`). */
module Grid {

  /** A cell given as (column, row), the order the game uses everywhere. */
  datatype Pos = Pos(x: nat, y: nat)

  predicate InGrid(rows: nat, cols: nat, p: Pos)
  {
    p.x < cols && p.y < rows
  }

  /** The two cells differ and are at most one step apart in each coordinate. */
  predicate Adjacent(p: Pos, q: Pos)
  {
    p != q && -1 <= p.x - q.x <= 1 && -1 <= p.y - q.y <= 1
  }

  predicate Distinct<T(==)>(s: seq<T>)
  {
    forall i, j :: 0 <= i < j < |s| ==> s[i] != s[j]
  }

  lemma MulMono(a: nat, b: nat, c: nat)
    requires a <= b
    ensures a * c <= b * c
  {
  }

  /** Position of a cell in the flat tile sequence: `y * cols + x`. */
  function Index(rows: nat, cols: nat, p: Pos): (i: nat)
    requires InGrid(rows, cols, p)
    ensures i < rows * cols
  {
    MulMono(p.y + 1, rows, cols);
    p.y * cols + p.x
  }

  /** Distinct cells of the grid occupy distinct slots of the sequence. */
  lemma IndexInjective(rows: nat, cols: nat, p: Pos, q: Pos)
    requires InGrid(rows, cols, p) && InGrid(rows, cols, q)
    requires Index(rows, cols, p) == Index(rows, cols, q)
    ensures p == q
  {
    if p.y < q.y {
      RowOrder(cols, p, q);
    } else if q.y < p.y {
      RowOrder(cols, q, p);
    }
  }

  /** Every cell of an earlier row comes before the whole of a later row. */
  lemma RowOrder(cols: nat, p: Pos, q: Pos)
    requires p.x < cols && p.y < q.y
    ensures p.y * cols + p.x < q.y * cols
  {
    MulMono(p.y + 1, q.y, cols);
  }

  /** Every slot of the sequence belongs to exactly one cell of the grid. */
  function PosOf(rows: nat, cols: nat, i: nat): (p: Pos)
    requires i < rows * cols
    ensures InGrid(rows, cols, p) && Index(rows, cols, p) == i
  {
    DivBound(rows, cols, i);
    Pos(i % cols, i / cols)
  }

  lemma DivBound(rows: nat, cols: nat, i: nat)
    requires i < rows * cols
    ensures cols > 0 && i / cols < rows && i == (i / cols) * cols + i % cols
  {
    if i / cols >= rows {
      MulMono(rows, i / cols, cols);
    }
  }

  /** The nine cells of the 3x3 block centred on `p`, in the order the source
      scans them: the column offset in the outer loop, the row offset inner. */
  function Candidates(p: Pos): (cs: seq<(int, int)>)
    ensures |cs| == 9 && Distinct(cs)
    ensures forall q: Pos :: (q.x as int, q.y as int) in cs <==> -1 <= q.x - p.x <= 1 && -1 <= q.y - p.y <= 1
  {
    var x, y := p.x as int, p.y as int;
    [(x - 1, y - 1), (x - 1, y), (x - 1, y + 1),
     (x, y - 1), (x, y), (x, y + 1),
     (x + 1, y - 1), (x + 1, y), (x + 1, y + 1)]
  }

  /** Keeps the candidates that lie on the grid and are not `p` itself, in order. */
  function KeepOnGrid(rows: nat, cols: nat, p: Pos, cs: seq<(int, int)>): (r: seq<Pos>)
    ensures forall q :: q in r <==> (q.x as int, q.y as int) in cs && InGrid(rows, cols, q) && q != p
    ensures Distinct(cs) ==> Distinct(r)
    ensures |r| <= |cs|
    ensures (p.x as int, p.y as int) in cs ==> |r| < |cs|
  {
    if |cs| == 0 then []
    else
      var c := cs[0];
      var rest := KeepOnGrid(rows, cols, p, cs[1..]);
      assert forall q: Pos :: (q.x as int, q.y as int) in cs <==> c == (q.x as int, q.y as int) || (q.x as int, q.y as int) in cs[1..];
      if c.0 < 0 || c.1 < 0 || c.0 > cols as int - 1 || c.1 > rows as int - 1 then
        rest
      else if c.0 == p.x && c.1 == p.y then
        rest
      else
        assert Distinct(cs) ==> c !in cs[1..];
        [Pos(c.0, c.1)] + rest
  }

  /** `get_neighboring_tiles`: the cells of the grid adjacent to `p`. */
  function Neighbors(rows: nat, cols: nat, p: Pos): (r: seq<Pos>)
    ensures forall q :: q in r <==> InGrid(rows, cols, q) && Adjacent(p, q)
    ensures Distinct(r)
    ensures |r| <= 8
  {
    KeepOnGrid(rows, cols, p, Candidates(p))
  }
}

=== FILE: mines.dfy ===
/** Mine placement: `Board::get_new_pos` and `Board::generate_mines`, and the
    tile swap the first reveal uses to move a mine away from the clicked cell.
    The random number generator becomes a nondeterministic choice of any
    unmined cell; the rejection-sampling loop's probabilistic termination is
    replaced by the requirement that such a cell exists. */
module Mines {
  import opened Outcomes
  import opened Counting
  import opened Grid
  import Tiles
  import opened Boards

  /** `get_new_pos`: some in-bounds cell without a mine. The source resamples
      until it finds one and never returns otherwise, so a board already full
      of mines is excluded. */
  method GetNewPos(b: Board) returns (p: Pos)
    requires WellFormed(b) && MineCount(b) < |b.tiles|
    ensures InBounds(b, p) && !At(b, p).hasMine
  {
    CountAll(b.tiles, Tiles.IsMined);
    var i :| 0 <= i < |b.tiles| && !b.tiles[i].hasMine;
    p := PosOf(b.rows, b.cols, i);
  }

  /** The assignment in the body of `generate_mines`: sets `has_mine` at `p`. */
  function PlaceMine(b: Board, p: Pos): (r: Board)
    requires WellFormed(b) && InBounds(b, p)
    ensures WellFormed(r) && SameShape(b, r)
    ensures forall i :: 0 <= i < |b.tiles| ==>
      && r.tiles[i].revealed == b.tiles[i].revealed
      && r.tiles[i].hasFlag == b.tiles[i].hasFlag
      && r.tiles[i].hasMine == (b.tiles[i].hasMine || i == Idx(b, p))
    ensures !At(b, p).hasMine ==> MineCount(r) == MineCount(b) + 1
  {
    var i := Idx(b, p);
    CountUpdate(b.tiles, i, b.tiles[i].(hasMine := true), Tiles.IsMined);
    b.(tiles := b.tiles[i := b.tiles[i].(hasMine := true)])
  }

  /** `generate_mines`: places `minesCount` mines, each on a cell that had
      none, without touching any other field. On a board with `m` mines the
      source terminates only if `m + minesCount` cells fit on the board. */
  method GenerateMines(b: Board) returns (r: Board)
    requires WellFormed(b) && MineCount(b) + b.minesCount <= |b.tiles|
    ensures WellFormed(r) && SameShape(b, r)
    ensures MineCount(r) == MineCount(b) + b.minesCount
    ensures forall i :: 0 <= i < |b.tiles| ==>
      && r.tiles[i].revealed == b.tiles[i].revealed
      && r.tiles[i].hasFlag == b.tiles[i].hasFlag
      && (b.tiles[i].hasMine ==> r.tiles[i].hasMine)
  {
    r := b;
    for k := 0 to b.minesCount
      invariant WellFormed(r) && SameShape(b, r)
      invariant MineCount(r) == MineCount(b) + k
      invariant forall i :: 0 <= i < |b.tiles| ==>
        && r.tiles[i].revealed == b.tiles[i].revealed
        && r.tiles[i].hasFlag == b.tiles[i].hasFlag
        && (b.tiles[i].hasMine ==> r.tiles[i].hasMine)
    {
      var p := GetNewPos(r);
      r := PlaceMine(r, p);
    }
  }

  /** A playable board as the session loop prepares it: `Board::new`
      followed by `generate_mines`. Exactly `mines` tiles are mined and none
      is revealed or flagged. */
  method SetUpBoard(rows: nat, cols: nat, mines: nat) returns (r: Result<Board>)
    ensures r.Ok? <==> mines <= rows * cols
    ensures r.Ok? ==> WellFormed(r.value) && r.value.rows == rows && r.value.cols == cols
    ensures r.Ok? ==> MineCount(r.value) == mines && r.value.minesCount == mines
    ensures r.Ok? ==> RevealedTiles(r.value) == 0 && FlaggedTiles(r.value) == 0
  {
    var made := New(rows, cols, mines);
    if made.Panic? {
      return made;
    }
    NewBoardCounts(rows, cols, mines);
    var b := GenerateMines(made.value);
    CountLe(b.tiles, Tiles.IsRevealed, made.value.tiles, Tiles.IsRevealed);
    CountLe(b.tiles, Tiles.IsFlagged, made.value.tiles, Tiles.IsFlagged);
    r := Ok(b);
  }

  /** Exchanges the full state of the tiles at `p` and `q`, as the first
      reveal does to move a mine off the clicked cell. */
  function SwapTiles(b: Board, p: Pos, q: Pos): (r: Board)
    requires WellFormed(b) && InBounds(b, p) && InBounds(b, q)
    ensures WellFormed(r) && SameShape(b, r)
    ensures At(r, p) == At(b, q) && At(r, q) == At(b, p)
    ensures forall o :: InBounds(b, o) && o != p && o != q ==> At(r, o) == At(b, o)
    ensures MineCount(r) == MineCount(b) && RevealedTiles(r) == RevealedTiles(b)
    ensures CoveredTiles(r) == CoveredTiles(b) && FlaggedTiles(r) == FlaggedTiles(b)
  {
    var i, j := Idx(b, p), Idx(b, q);
    var c := b.(tiles := b.tiles[i := b.tiles[j]]);
    UpdateFrame(b, p, b.tiles[j]);
    UpdateFrame(c, q, b.tiles[i]);
    SwapCount(b.tiles, i, j, Tiles.IsMined);
    SwapCount(b.tiles, i, j, Tiles.IsRevealed);
    SwapCount(b.tiles, i, j, Tiles.IsCovered);
    SwapCount(b.tiles, i, j, Tiles.IsFlagged);
    c.(tiles := c.tiles[j := b.tiles[i]])
  }
}

=== FILE: outcomes.dfy ===
/** Failure-carrying values shared by every module of the model.
    A Rust panic (a failed `assert!`, an explicit `panic!`, an `unwrap` of
    `None`, an unsigned subtraction that underflows) becomes the `Panic` case,
    so a caller can see exactly which inputs make the program abort. */
module Outcomes {

  datatype Option<+T> = None | Some(value: T)

  datatype Result<+T> = Ok(value: T) | Panic(reason: string)
}

=== FILE: render.dfy ===
/** The pure decisions inside `Board::draw`: which symbol each cell shows
    and the remaining-mine counter in the top border. Colours, escape codes,
    borders and padding are not modelled. */
module Render {
  import opened Outcomes
  import opened Counting
  import opened Grid
  import Tiles
  import opened Boards
  import opened Status
  import opened Flood
  import Scenarios

  /** How a mine is highlighted once the game has ended. */
  datatype MineMark = Plain | FlaggedMine | Fatal

  /** What one cell shows: `#`, `^` (alarmed once the game has ended), a
      blank, a digit 1-8, or `*`. */
  datatype Glyph = Covered | FlagMark(alarm: bool) | Blank | Number(n: nat) | Mine(mark: MineMark)

  /** The choice at lines 206-268. After the game has ended every mine shows
      as `*`: flagged ones marked, the fatal one found by unwrapping the
      recorded cell, which panics if none was recorded. A revealed cell shows
      its adjacent-mine count, where more than 8 would panic. */
  function TileGlyph(b: Board, st: GameState, p: Pos): (r: Result<Glyph>)
    requires WellFormed(b) && InBounds(b, p)
    ensures r.Panic? <==> st.gameEnded && At(b, p).hasMine && !At(b, p).hasFlag && st.gameEndingTile.None?
    ensures r.Ok? ==> (r.value.Mine? <==> st.gameEnded && At(b, p).hasMine)
    ensures r.Ok? && r.value.Mine? ==> (r.value.mark == FlaggedMine <==> At(b, p).hasFlag)
    ensures r.Ok? && r.value.Mine? ==> (r.value.mark == Fatal <==> !At(b, p).hasFlag && st.gameEndingTile == Some(p))
    ensures r.Ok? && !r.value.Mine? ==>
      && (r.value.Number? || r.value.Blank? <==> At(b, p).revealed)
      && (r.value.Number? ==> 1 <= r.value.n <= 8 && r.value.n == MinedNeighborCount(b, p))
      && (r.value.Blank? ==> MinedNeighborCount(b, p) == 0)
      && (r.value.FlagMark? <==> !At(b, p).revealed && At(b, p).hasFlag)
      && (r.value.FlagMark? ==> r.value.alarm == st.gameEnded)
  {
    var t := At(b, p);
    if st.gameEnded && t.hasMine then
      if t.hasFlag then
        Ok(Mine(FlaggedMine))
      else
        match st.gameEndingTile
        case None => Panic("called `Option::unwrap()` on a `None` value")
        case Some(fatal) => Ok(Mine(if fatal == p then Fatal else Plain))
    else if t.revealed then
      var n := MinedNeighborCount(b, p);
      if n == 0 then Ok(Blank)
      else if n <= 8 then Ok(Number(n))
      else Panic("More than 8 nearby mines!")
    else if t.hasFlag then
      Ok(FlagMark(st.gameEnded))
    else
      Ok(Covered)
  }

  /** The character printed for a glyph. */
  function GlyphChar(g: Glyph): (c: char)
    requires g.Number? ==> 1 <= g.n <= 8
    ensures c in "#^ 12345678*"
    ensures g.Number? <==> '1' <= c <= '8'
    ensures g.Number? ==> c as int == '0' as int + g.n
    ensures g.Covered? <==> c == '#'
    ensures g.FlagMark? <==> c == '^'
    ensures g.Blank? <==> c == ' '
    ensures g.Mine? <==> c == '*'
  {
    match g
    case Covered => '#'
    case FlagMark(_) => '^'
    case Blank => ' '
    case Number(n) => ('0' as int + n) as char
    case Mine(_) => '*'
  }

  /** While the game runs nothing about a covered cell's own mine shows:
      the glyph is the same whether or not the cell holds one. */
  lemma CoveredCellHidesMine(b: Board, st: GameState, p: Pos, mined: bool)
    requires WellFormed(b) && InBounds(b, p) && !st.gameEnded && !At(b, p).revealed
    ensures var other := b.(tiles := b.tiles[Idx(b, p) := At(b, p).(hasMine := mined)]);
      TileGlyph(other, st, p) == TileGlyph(b, st, p)
  {
    UpdateFrame(b, p, At(b, p).(hasMine := mined));
  }

  /** A reveal from the initial status, or from any status in which an ended
      game has its fatal cell recorded, keeps that record, so `draw` can
      never hit its `unwrap` panic and every glyph has a character. */
  lemma DrawAfterRevealNeverPanics(b: Board, st: GameState, p: Pos, spare: Pos, q: Pos)
    requires WellFormed(b) && InBounds(b, p) && InBounds(b, q) && EndingRecorded(st)
    requires NeedsSpare(b, st, p) ==> SpareOk(b, spare)
    ensures var r := Reveal(b, st, p, spare);
      var g := TileGlyph(r.board, r.state, q);
      g.Ok? && (g.value.Number? ==> 1 <= g.value.n <= 8)
  {
  }

  /** The counter at line 187: the mine budget minus the flags placed, in
      unsigned arithmetic, which panics (in a debug build) once more flags
      than mines are placed. */
  function MineCounter(b: Board): (r: Result<nat>)
    requires WellFormed(b)
    ensures r.Panic? <==> FlaggedTiles(b) > b.minesCount
    ensures r.Ok? ==> r.value + FlaggedTiles(b) == b.minesCount
  {
    if FlaggedTiles(b) > b.minesCount then Panic("attempt to subtract with overflow")
    else Ok(b.minesCount - FlaggedTiles(b))
  }

  /** The counter corrected to signed arithmetic: it never aborts, goes
      negative when the player over-flags, and agrees with the unsigned
      counter wherever that one is defined. */
  function SignedMineCounter(b: Board): (r: int)
    requires WellFormed(b)
    ensures MineCounter(b).Ok? ==> r == MineCounter(b).value
    ensures r < 0 <==> MineCounter(b).Panic?
    ensures r + FlaggedTiles(b) == b.minesCount
  {
    b.minesCount - FlaggedTiles(b)
  }

  /** A one-mine board with three flags: the unsigned counter panics, the
      signed one shows -2. */
  lemma OverFlaggedCounter()
    ensures MineCounter(Scenarios.AllFlagged).Panic?
    ensures SignedMineCounter(Scenarios.AllFlagged) == -2
  {
    var ts := Scenarios.AllFlagged.tiles;
    Count3(ts[0], ts[1], ts[2], Tiles.IsFlagged);
  }
}

=== FILE: scenarios.dfy ===
/** Small boards used as worked examples: the 1x3 strips on which the
    win-test and counter findings play out, and the 1x5 strip showing that
    flood soundness is about reachability through zero cells. */
module Scenarios {
  import opened Grid
  import Tiles
  import opened Boards
  import opened Flood

  /** A 1x3 board, one mine in the middle, as `generate_mines` may leave it. */
  const Strip: Board := Board(1, 3, 1, [Tiles.Fresh, Tiles.Tile(false, true, false), Tiles.Fresh])

  /** The same board after its mine was flagged and (0, 0) revealed. */
  const MidGame: Board :=
    Board(1, 3, 1, [Tiles.Tile(true, false, false), Tiles.Tile(false, true, true), Tiles.Fresh])

  /** The same board with every cell flagged and nothing revealed. */
  const AllFlagged: Board :=
    Board(1, 3, 1, [Tiles.Tile(false, false, true), Tiles.Tile(false, true, true), Tiles.Tile(false, false, true)])

  /** `Strip` with its mine flagged. */
  const FlaggedStrip: Board :=
    Board(1, 3, 1, [Tiles.Fresh, Tiles.Tile(false, true, true), Tiles.Fresh])

  /** On `FlaggedStrip` no chain of links from (0, 0) reaches (2, 0): the
      only neighbour of (2, 0) is the mine at (1, 0), which a reveal step
      never uncovers, so it cannot be a link. */
  lemma FarCellUnreachable(c: Board)
    requires RevealStep(FlaggedStrip, c)
    ensures !Reachable(FlaggedStrip, c, [Pos(0, 0)], Pos(2, 0))
  {
    StepAt(FlaggedStrip, c, Pos(1, 0));
    forall m | Link(FlaggedStrip, c, m)
      ensures !Adjacent(m, Pos(2, 0))
    {
    }
  }

  /** In a flood from (0, 0) on `FlaggedStrip`, the cell (2, 0) stays
      covered, since soundness would need a chain of links reaching it. */
  lemma FarCellStaysCovered(c: Board)
    requires RevealStep(FlaggedStrip, c) && Sound(FlaggedStrip, c, [Pos(0, 0)])
    ensures !At(c, Pos(2, 0)).revealed
  {
    FarCellUnreachable(c);
  }

  /** A 1x5 strip with its mine at (1, 0). */
  const LongStrip: Board :=
    Board(1, 5, 1, [Tiles.Fresh, Tiles.Tile(false, true, false), Tiles.Fresh, Tiles.Fresh, Tiles.Fresh])

  /** `LongStrip` with every safe cell revealed. */
  const Island: Board :=
    Board(1, 5, 1, [Tiles.Tile(true, false, false), Tiles.Tile(false, true, false),
                    Tiles.Tile(true, false, false), Tiles.Tile(true, false, false), Tiles.Tile(true, false, false)])

  /** Cells (3, 0) and (4, 0) of `Island` have no mined neighbour and border
      each other, but no chain of links joins them to (0, 0): (2, 0) and
      (0, 0) border the mine, so neither is a link. */
  lemma {:induction false} IslandUnreached(k: nat)
    requires RevealStep(LongStrip, Island)
    ensures !Reached(LongStrip, Island, [Pos(0, 0)], Pos(3, 0), k)
    ensures !Reached(LongStrip, Island, [Pos(0, 0)], Pos(4, 0), k)
  {
    if k > 0 {
      IslandUnreached(k - 1);
      forall m | Link(LongStrip, Island, m) && (Adjacent(m, Pos(3, 0)) || Adjacent(m, Pos(4, 0)))
        ensures m == Pos(3, 0) || m == Pos(4, 0)
      {
        IslandLinks(m);
      }
    }
  }

  /** The only links next to the island are the island's own cells. */
  lemma IslandLinks(m: Pos)
    requires Link(LongStrip, Island, m) && (Adjacent(m, Pos(3, 0)) || Adjacent(m, Pos(4, 0)))
    ensures m == Pos(3, 0) || m == Pos(4, 0)
  {
    MidCellNumbered();
    assert m.y == 0 && m.x < 5 && m != Pos(2, 0);
  }

  /** (2, 0) of `Island` borders the mine, so it cannot carry the flood on. */
  lemma MidCellNumbered()
    ensures WellFormed(Island) && MinedNeighborCount(Island, Pos(2, 0)) > 0
  {
    var mid, mine := Pos(2, 0), Pos(1, 0);
    assert WellFormed(Island) && InBounds(Island, mid) && InBounds(Island, mine);
    assert Adjacent(mid, mine) && At(Island, mine).hasMine;
    MinedNeighborCountZero(Island, mid);
  }

  /** Soundness is about reachability, not a local condition: the board
      that also reveals the island (3, 0), (4, 0) is a reveal step from
      `LongStrip`, but it is not a sound flood from (0, 0). */
  lemma IslandIsNotSound()
    ensures RevealStep(LongStrip, Island)
    ensures !Sound(LongStrip, Island, [Pos(0, 0)])
  {
    assert RevealStep(LongStrip, Island) by {
      forall i | 0 <= i < |LongStrip.tiles|
        ensures TileStep(LongStrip.tiles[i], Island.tiles[i])
      {
      }
    }
    IslandUnreached(0);
    assert NewlyRevealed(LongStrip, Island, Pos(3, 0));
    forall k: nat
      ensures !Reached(LongStrip, Island, [Pos(0, 0)], Pos(3, 0), k)
    {
      IslandUnreached(k);
    }
  }

  /** The only reveal step from `FlaggedStrip` that uncovers (0, 0) and not
      (2, 0) ends at `MidGame`. */
  lemma StepToMidGame(c: Board)
    requires RevealStep(FlaggedStrip, c) && At(c, Pos(0, 0)).revealed && !At(c, Pos(2, 0)).revealed
    ensures c == MidGame
  {
    StepAt(FlaggedStrip, c, Pos(0, 0));
    StepAt(FlaggedStrip, c, Pos(1, 0));
    StepAt(FlaggedStrip, c, Pos(2, 0));
    assert c.tiles == [c.tiles[0], c.tiles[1], c.tiles[2]];
  }
}

=== FILE: session.dfy ===
/** The win test at the top of each turn of `game_loop` (lines 418-427), as
    the source writes it and in a corrected form. */
module Session {
  import opened Outcomes
  import opened Counting
  import opened Grid
  import Tiles
  import opened Boards
  import opened Status
  import opened Flood
  import opened Scenarios

  /** Lines 418-427 as written: a board with nothing remaining is won; a
      board whose remaining tiles equal the mine budget, or whose remaining
      and flagged tiles together do, is auto-flagged and won. The auto-flag
      panics whenever its own guard (remaining + flagged == mines) fails. */
  function WinCheck(b: Board, st: GameState): (r: Result<Play>)
    requires WellFormed(b)
    ensures r.Panic? <==> RemainingTiles(b) == b.minesCount && FlaggedTiles(b) > 0
    ensures r.Ok? ==> r.value.state == st.(gameWon := r.value.state.gameWon)
    ensures r.Ok? ==> (r.value.state.gameWon <==>
      st.gameWon || RemainingTiles(b) == 0 || RemainingTiles(b) + FlaggedTiles(b) == b.minesCount)
    ensures r.Ok? && RemainingTiles(b) + FlaggedTiles(b) != b.minesCount ==> r.value.board == b
    ensures r.Ok? ==> RemainingTiles(b) + FlaggedTiles(b) == b.minesCount ==>
      && RemainingTiles(r.value.board) == 0
      && SameShape(b, r.value.board)
      && forall i :: 0 <= i < |b.tiles| ==>
           && r.value.board.tiles[i].revealed == b.tiles[i].revealed
           && r.value.board.tiles[i].hasMine == b.tiles[i].hasMine
           // every flag stays, and exactly the covered tiles gain one
           && r.value.board.tiles[i].hasFlag == (b.tiles[i].hasFlag || !b.tiles[i].revealed)
  {
    var st' := if RemainingTiles(b) == 0 then st.(gameWon := true) else st;
    if RemainingTiles(b) == b.minesCount || RemainingTiles(b) + FlaggedTiles(b) == b.minesCount then
      match FlagAllRemainingTiles(b)
      case Panic(why) => Panic(why)
      case Ok(flagged) => Ok(Play(flagged, st'.(gameWon := true)))
    else
      Ok(Play(b, st'))
  }

  /** `MidGame` is reached in ordinary play: on `Strip`, flag the mine, then
      reveal (0, 0) as the first pick. */
  lemma ReachMidGame(spare: Pos)
    ensures var after := Reveal(Flag(Strip, Pos(1, 0)), Initial, Pos(0, 0), spare);
      after.board == MidGame && !after.state.gameEnded
  {
    assert Flag(Strip, Pos(1, 0)).tiles == FlaggedStrip.tiles;
    assert !NeedsSpare(FlaggedStrip, Initial, Pos(0, 0));
    RevealFlood(FlaggedStrip, Initial, Pos(0, 0), spare);
    var c := Reveal(FlaggedStrip, Initial, Pos(0, 0), spare).board;
    FarCellStaysCovered(c);
    StepToMidGame(c);
  }

  /** The win test panics on `MidGame`, a game that is neither lost nor won:
      one tile remains, equal to the mine budget, so the auto-flag is
      called, and its guard sees 1 remaining + 1 flagged != 1 mine. */
  lemma WinCheckPanicsMidGame(st: GameState)
    ensures WellFormed(MidGame) && !At(MidGame, Pos(2, 0)).hasMine && !At(MidGame, Pos(2, 0)).revealed
    ensures WinCheck(MidGame, st).Panic?
  {
    Count3(MidGame.tiles[0], MidGame.tiles[1], MidGame.tiles[2], Tiles.IsRemaining);
    Count3(MidGame.tiles[0], MidGame.tiles[1], MidGame.tiles[2], Tiles.IsFlagged);
  }

  /** Flagging every cell wins without revealing anything: `AllFlagged`
      (three `flag` calls on `Strip`) has nothing remaining, so the win test
      declares victory although both safe cells are still covered. */
  lemma FlagEverythingWins()
    ensures Flag(Flag(Flag(Strip, Pos(0, 0)), Pos(1, 0)), Pos(2, 0)) == AllFlagged
    ensures !Cleared(AllFlagged)
    ensures WinCheck(AllFlagged, Initial).Ok? && WinCheck(AllFlagged, Initial).value.state.gameWon
  {
    var b := Flag(Flag(Flag(Strip, Pos(0, 0)), Pos(1, 0)), Pos(2, 0));
    assert b.tiles == AllFlagged.tiles;
    assert !AllFlagged.tiles[0].hasMine && !AllFlagged.tiles[0].revealed;
    Count3(AllFlagged.tiles[0], AllFlagged.tiles[1], AllFlagged.tiles[2], Tiles.IsRemaining);
    Count3(AllFlagged.tiles[0], AllFlagged.tiles[1], AllFlagged.tiles[2], Tiles.IsFlagged);
  }

  /** Every cell without a mine has been revealed: the game is won. */
  predicate Cleared(b: Board)
  {
    forall i :: 0 <= i < |b.tiles| ==> !b.tiles[i].hasMine ==> b.tiles[i].revealed
  }

  /** A board as play keeps it: the mine budget is placed and no revealed
      tile holds a mine. */
  predicate InPlay(b: Board)
  {
    WellFormed(b) && MineCount(b) == b.minesCount && NoOpenMine(b)
  }

  /** The win test corrected: the game is won exactly when the covered
      tiles are the mines, which are then all flagged. It cannot panic. */
  function FixedWinCheck(b: Board, st: GameState): (r: Play)
    requires WellFormed(b)
    ensures r.state == st.(gameWon := st.gameWon || CoveredTiles(b) == b.minesCount)
    ensures SameShape(b, r.board)
    ensures forall i :: 0 <= i < |b.tiles| ==>
      r.board.tiles[i].revealed == b.tiles[i].revealed && r.board.tiles[i].hasMine == b.tiles[i].hasMine
    ensures forall i :: 0 <= i < |b.tiles| ==>
      r.board.tiles[i].hasFlag == (b.tiles[i].hasFlag || (CoveredTiles(b) == b.minesCount && !b.tiles[i].revealed))
    ensures CoveredTiles(b) != b.minesCount ==> r.board == b
  {
    if CoveredTiles(b) == b.minesCount then
      Play(b.(tiles := FlagRemaining(b.tiles)), st.(gameWon := true))
    else
      Play(b, st)
  }

  /** The corrected test declares a win exactly when every safe cell is
      revealed, and then every mine carries a flag and nothing remains. */
  lemma FixedWinCheckCorrect(b: Board, st: GameState)
    requires InPlay(b)
    ensures var r := FixedWinCheck(b, st);
      && (r.state.gameWon <==> st.gameWon || Cleared(b))
      && (Cleared(b) ==> RemainingTiles(r.board) == 0)
      && (Cleared(b) ==> forall i :: 0 <= i < |b.tiles| ==> b.tiles[i].hasMine ==> r.board.tiles[i].hasFlag)
  {
    CountLe(b.tiles, Tiles.IsMined, b.tiles, Tiles.IsCovered);
    if Cleared(b) {
      CountLe(b.tiles, Tiles.IsCovered, b.tiles, Tiles.IsMined);
      FlagRemainingCounts(b.tiles);
    }
  }

  /** On the two boards of the findings the corrected test declares no win. */
  lemma FixedWinCheckOnFindings(st: GameState)
    requires !st.gameWon
    ensures !FixedWinCheck(MidGame, st).state.gameWon
    ensures !FixedWinCheck(AllFlagged, st).state.gameWon
  {
    Count3(MidGame.tiles[0], MidGame.tiles[1], MidGame.tiles[2], Tiles.IsCovered);
    Count3(AllFlagged.tiles[0], AllFlagged.tiles[1], AllFlagged.tiles[2], Tiles.IsCovered);
  }

  /** One player action after the coordinates were checked against the
      board (lines 484-487). A reveal carries the cell the random generator
      would produce should the first pick need to move a mine. */
  datatype Move = RevealAt(p: Pos, spare: Pos) | FlagAt(p: Pos)

  predicate Legal(b: Board, st: GameState, m: Move)
    requires WellFormed(b)
  {
    InBounds(b, m.p) && (m.RevealAt? && NeedsSpare(b, st, m.p) ==> SpareOk(b, m.spare))
  }

  /** The dispatch of `game_loop` to `Board::reveal` or `Board::flag`. */
  function Apply(b: Board, st: GameState, m: Move): (r: Play)
    requires WellFormed(b) && Legal(b, st, m)
    ensures WellFormed(r.board) && SameShape(b, r.board) && MineCount(r.board) == MineCount(b)
    ensures m.FlagAt? ==> r.state == st
    // a flag move toggles the flag of its cell and nothing else
    ensures m.FlagAt? ==> At(r.board, m.p).hasFlag != At(b, m.p).hasFlag
    ensures m.FlagAt? ==> forall q :: InBounds(b, q) && q != m.p ==> At(r.board, q) == At(b, q)
    // a reveal move is `Board::reveal` on its cell
    ensures m.RevealAt? ==> r == Reveal(b, st, m.p, m.spare)
  {
    match m
    case RevealAt(p, spare) => Reveal(b, st, p, spare)
    case FlagAt(p) => FlagCounts(b, p); Play(Flag(b, p), st)
  }

  /** Every turn keeps the board in play (the mine budget placed, no mine
      revealed) and keeps the fatal cell recorded once the game has ended,
      so by induction this holds for every game that starts from
      `SetUpBoard` and the initial status. */
  lemma TurnPreservesInPlay(b: Board, st: GameState, m: Move)
    requires InPlay(b) && EndingRecorded(st) && Legal(b, st, m)
    ensures var r := Apply(b, st, m); InPlay(r.board) && EndingRecorded(r.state)
  {
    match m
    case RevealAt(p, spare) =>
      RevealKeepsMinesCovered(b, st, p, spare);
    case FlagAt(p) =>
  }
}

=== FILE: status.dfy ===
/** The game status the source keeps in a process-wide `RwLock<GameState>`;
    here it is an ordinary value passed into and returned from every
    operation that reads or writes it. */
module Status {
  import opened Outcomes
  import opened Grid

  datatype GameState = GameState(
    pickedTile: bool,               // the first reveal has happened
    gameEnded: bool,                // a mine was hit
    gameWon: bool,
    gameEndingTile: Option<Pos>)    // the cell of the fatal mine

  /** `GameState::new`, also what `restart` resets to. */
  const Initial: GameState := GameState(false, false, false, None)

  /** Whenever the game has ended, the fatal cell is known; `draw` unwraps it. */
  predicate EndingRecorded(st: GameState)
  {
    st.gameEnded ==> st.gameEndingTile.Some?
  }
}

=== FILE: tiles.dfy ===
/** One cell of the minefield (`struct Tile`) and its two operations. */
module Tiles {

  datatype Tile = Tile(revealed: bool, hasMine: bool, hasFlag: bool)

  /** `Tile::new`: covered, empty and unflagged. */
  const Fresh: Tile := Tile(false, false, false)

  /** `Tile::reveal`. The second component is true when the call reported a
      mine hit (the source sets the global `game_ended` flag); a mined tile is
      then left exactly as it was. Any other tile becomes revealed and loses
      its flag. */
  function Reveal(t: Tile): (r: (Tile, bool))
    ensures r.1 <==> t.hasMine
    ensures r.1 ==> r.0 == t
    ensures !r.1 ==> r.0.revealed && !r.0.hasFlag && !r.0.hasMine
  {
    if t.hasMine then (t, true) else (t.(hasFlag := false, revealed := true), false)
  }

  /** `Tile::flag`: toggles the flag and nothing else. */
  function Flag(t: Tile): (r: Tile)
    ensures r != t && r.revealed == t.revealed && r.hasMine == t.hasMine
  {
    t.(hasFlag := !t.hasFlag)
  }

  /** Revealing a tile that is already revealed changes nothing. */
  lemma RevealIdempotent(t: Tile)
    requires !t.hasMine
    ensures Reveal(Reveal(t).0) == Reveal(t)
  {
  }

  /** Flagging twice restores the tile. */
  lemma FlagInvolutive(t: Tile)
    ensures Flag(Flag(t)) == t
  {
  }

  // The predicates the board counts tiles by.

  predicate IsMined(t: Tile) { t.hasMine }

  predicate IsFlagged(t: Tile) { t.hasFlag }

  predicate IsRevealed(t: Tile) { t.revealed }

  predicate IsCovered(t: Tile) { !t.revealed }

  /** Neither revealed nor flagged: what `remaining_tiles` counts. */
  predicate IsRemaining(t: Tile) { !t.revealed && !t.hasFlag }

  /** A revealed tile that carries a flag; `Board::flag` does not prevent it. */
  predicate IsFlaggedOpen(t: Tile) { t.revealed && t.hasFlag }
}
